=== FILE: README.md ===
# Red Packet Guard, modelled in Dafny

Red Packet Guard is a Telegram moderation bot for groups where members post
"red packet" codes. In group and supergroup chats it deletes every message
that is not a code. A code is 8 or 10 ASCII letters and digits. The bot counts
each user's violations and answers each one with a warning, a 24-hour timeout
or a ban, depending on two per-group thresholds. Admins change the thresholds
through a small configuration dialog in a private chat: choose a group, choose
a limit, confirm.

The model covers the two rule evaluators in `index.js` and the state they
share:

- `spamTracker`: the violation tracker, keyed by user id alone.
- `groupSettings`: the per-group thresholds, keyed by text.
- `configSessions`: the per-admin dialog sessions.

All three are immutable maps, and every handler is a pure function from old
maps to new maps. Platform calls enter the model as parameters:

- the membership lookup behind `isUserAdmin` (a `Directory` oracle);
- whether `deleteMessage` succeeded;
- whether `answerCallbackQuery` succeeded;
- whether the confirmation's `editMessageText` succeeded;
- the clock reading.

Only the calls whose failure changes what gets written are modelled.

| file | module | what it holds |
|---|---|---|
| basics.dfy | `Basics` | `Option` (JavaScript's `undefined`) and `StartsWith` |
| members.dfy | `Members` | member statuses, the lookup oracle, `IsUserAdmin` |
| decimal.dfy | `Decimal` | `Render` (`Number#toString`, which builds the settings key of a chat) and `Parse` (a decimal `parseInt`), with their round trip |
| settings.dfy | `Settings` | `GroupSettings`, the defaults 2 and 10, the effective-settings lookup, and the write a confirmation makes |
| filter.dfy | `Filter` | the code format, the escalation rule, the filter step `Moderate`, and its replay over a message stream |
| dialog.dfy | `Dialog` | sessions, button events, `Press` (callback handler), `Type` (private-chat text branch), and runs of one user's inputs |
| bot.dfy | `Bot` | both handlers over the full state, runs of events, and properties linking the filter with the dialog |

Behaviour of the code that the model makes explicit:

- The counter is raised only after the delete call succeeds: both sit in one
  `try`. A failed delete leaves the counter untouched.
- The counter is never reset, not even after a ban. Every later violation by
  that user is a ban again, in every group whose limits are the same.
- Texts beginning with `/start`, and exactly `/help` or `/privacy`, are
  answered by the command branches. Those branches return before the filter
  runs, so such texts from non-admins in a group are never deleted.
- The dialog writes settings under the text the admin typed. The filter reads
  them under the chat's numeric id rendered as text. Settings confirmed for a
  reference that is not a numeral are stored but never applied.
- `set_limit_<n>` moves any session to confirmation, even one that never chose
  a group. Confirming such a session throws a `TypeError` at index.js:168.
  `confirm_config` does not check the stage, so confirming at the limit step
  stores `undefined` as the limit. A count is never `>= undefined`, so that
  group then never bans (or never times out) until the limit is confirmed
  again.

The admin mini-app starts from defaults of 3 for timeout and 5 for ban
(public/js/app.js:8-9). These differ from the bot's own defaults of 2 and 10.

## Model

| member | source | states |
|---|---|---|
| `Members.IsUserAdmin` | index.js:21-28 | a user is an admin iff the lookup reports creator or administrator; a failed lookup means "not an admin" (fails closed) |
| `Decimal.Render` | index.js:304 | a chat id's key is non-empty, starts with `-` exactly for negative ids, and is digits otherwise |
| `Decimal.ParseRender` | index.js:304 | parsing the text key of a chat id gives back the id |
| `Decimal.RenderInjective` | index.js:304 | distinct chats never share a settings key |
| `Decimal.NotARendering` | index.js:304 | a text holding a character other than a digit or `-` is the key of no chat |
| `Settings.Apply` | index.js:168-172 | a confirmation sets the chosen limit, keeps the other limit (its default when the group had no entry), adds the group's key, and leaves every other group as it was |
| `Settings.ApplyIdempotent` | index.js:168-172 | confirming the same limit twice stores what confirming it once stores |
| `Settings.ApplyCommutes` | index.js:168-172 | setting the timeout and the ban limit gives the same settings in either order |
| `Filter.MatchesAlnum` | index.js:312 | the pattern test holds iff the text is non-empty and every character is an ASCII letter or digit |
| `Filter.ShouldDelete` | index.js:307-315 | a message is deleted iff its text is missing or is not 8 or 10 ASCII letters and digits |
| `Filter.ValidCodeExamples` | index.js:309-315 | "AB12CD34" and the 10-character "ab12CD34ef" are not deleted |
| `Filter.InvalidCodeExamples` | index.js:309-315 | 9 characters, a hyphen, a trailing newline, an empty text and a missing text are all deleted |
| `Filter.EscalateMonotone` | index.js:325-337 | a larger count never earns a milder penalty under the same limits |
| `Filter.BanWinsTies` | index.js:325-329 | a count meeting both thresholds earns a ban |
| `Filter.Moderate` | index.js:300-342 | decision table: non-group chats, admins, valid codes and failed deletes leave the counter alone; otherwise the sender's count goes up by exactly one, its timestamp is renewed, and the penalty is the escalation of the new count under the chat's effective limits; no other user's entry changes |
| `Filter.BanKeepsCount` | index.js:320-327 | after a ban the user's entry stays in place, at or above the ban limit |
| `Filter.UndefinedBanLimitNeverBans` | index.js:325 | a group whose stored ban limit is `undefined` never bans |
| `Filter.Replay` | index.js:300-342 | replaying a message stream gives one verdict per message |
| `Filter.CounterCountsViolations` | index.js:318-323 | after any stream, a user's count has grown by exactly the number of that user's messages that were counted |
| `Filter.CountsNeverDecrease` | index.js:320-323 | no stream lowers a count or removes a user from the tracker |
| `Filter.EscalationSequence` | index.js:318-337 | n consecutive violations by one user, in any groups with the same limits, earn the penalties of counts c+1 ... c+n, where c is the starting count |
| `Filter.DefaultLadder` | index.js:304 | with the default limits, a new user's first ten violations earn one warning, eight timeouts, then a ban |
| `Filter.BanIsSticky` | index.js:320-326 | once a user's count has reached the ban limit, every later counted violation by that user under those limits is a ban, whatever other messages come in between (no reset) |
| `Dialog.Press` | index.js:136-209 | a button press changes only the presser's session; only `confirm_config` writes settings; `privacy_policy`, an unanswered callback, a confirm without a session and a confirm without a group id change nothing; a confirm on a session without a group id always raises the `TypeError` fault; an answered press other than `confirm_config` raises no fault; a failed confirmation edit leaves the sessions as they were |
| `Dialog.Type` | index.js:219-238 | a text is consumed exactly when the sender has a session and the text is non-empty and either a non-command at the group step or a numeral at the limit step; unconsumed text changes nothing; text never writes settings, never creates or ends a session, and touches only the sender's session |
| `Dialog.ConfigureStartsFresh` | index.js:136-139 | `config_<a>` replaces any session of the user with a fresh one at the group step for action a |
| `Dialog.SetLimitConfirms` | index.js:153-161 | `set_limit_<n>` on any session sets the limit to n and the stage to confirmation, keeping action and group; without a session it is a no-op |
| `Dialog.ConfirmWritesChosenLimit` | index.js:164-180 | confirm sets the limit the action names, keeps the other limit, changes no other group's effective settings, and ends the session exactly when the edit succeeds |
| `Dialog.BackToActionEndsSession` | index.js:182-191 | `back_to_action` deletes the session and writes no settings |
| `Dialog.BackChangesOnlyStage` | index.js:193-209 | `back_to_group` and `back_to_limit` change only the stage of an existing session |
| `Dialog.GroupStepNeedsAdmin` | index.js:221-231 | at the group step, a reference from a non-admin changes nothing; from an admin it is stored and the stage becomes choose_limit |
| `Dialog.LimitStepTakesNumeral` | index.js:232-237 | at the limit step, a numeral becomes the limit and the stage becomes confirmation |
| `Dialog.PressKeepsConfirmationLimit` | index.js:153-209 | no button press leaves a confirmation-stage session without a limit |
| `Dialog.TypeKeepsConfirmationLimit` | index.js:219-238 | no text leaves a confirmation-stage session without a limit |
| `Dialog.DriveKeepsConfirmationLimit` | index.js:108-238 | over any run of one user's inputs, confirmation-stage sessions always carry a limit |
| `Dialog.ConfirmWithoutGroupThrows` | index.js:153-168 | `config_<a>`, then `set_limit_<n>`, then `confirm_config` ends in the missing-group fault, with a confirmation-stage session that has no group |
| `Dialog.ConfirmBeforeLimitStoresUndefined` | index.js:164-172 | `config_<a>`, a group id from its admin, then `confirm_config` stores `undefined` as the chosen limit and keeps the other |
| `Bot.OnMessage` | index.js:213-342 | messages never write settings; group messages never touch sessions; private messages never touch counters and update sessions exactly as the private-text branch does; commands in groups change nothing and skip the filter; other group messages get the filter's verdict and counter update; counts never go down |
| `Bot.OnCallback` | index.js:108-210 | button presses never touch the violation counters and never remove a group's settings; the sessions, settings and fault are exactly those of the dialog's button step |
| `Bot.RunInvariants` | index.js:16-18 | over any run of events: counts never decrease (no reset on a ban), settings are never removed, confirmation-stage sessions carry a limit |
| `Bot.StartTextEscapesFilter` | index.js:240-262 | any `/start...` text in a group leaves the state unchanged and is not filtered, whoever sent it |
| `Bot.DefaultsInFilter` | index.js:304 | in a group with no stored settings, a counted violation is escalated under a timeout limit of 2 and a ban limit of 10 |
| `Bot.DefaultsInHelp` | index.js:32 | the help panel of a chat with no stored settings shows 2 and 10 |
| `Bot.DefaultsOnConfirm` | index.js:168-172 | a confirmation for a group with no stored settings stores the default for the limit it does not set |
| `Bot.HelpShowsEnforcedLimits` | index.js:31-36 | the help panel shows the limits the filter enforces in that chat |
| `Bot.ConfirmedBanLimitIsEnforced` | index.js:168-172 | after confirming ban limit L for a chat, the next violation there is a ban iff the new count is at least L |
| `Bot.ForeignReferenceIsInert` | index.js:222-224 | a confirmation for a reference that is not a decimal numeral (one `Parse` rejects) leaves every chat's effective settings unchanged |
| `Bot.ConfirmBeforeLimitDisablesBans` | index.js:164-172 | after `config_ban`, a group id, and an early `confirm_config`, no message in that chat is banned until its ban limit is confirmed again |

## Left out

- `public/js/app.js`: the admin mini-app's DOM rendering and HTTP calls. It holds no rule logic.
- The Telegram calls as actions (ban, restrict, send, edit, `getMe`). The filter returns its decision instead. Only the failures of `deleteMessage`, `answerCallbackQuery` and the confirmation edit are modelled, because only they change what is written.
- Other awaited calls can also throw without changing state (the permission-denied message, `/start`'s `getMe`). These throws are not modelled as faults.
- The 10-second notice cleanup (index.js:328, 333, 336) and the `polling_error` logger (index.js:345-347): timers and logging.
- Token loading and the polling loop (index.js:1-13): process setup.
- Message texts: help, privacy, start and notices, and display-name formatting. The help panel is modelled only as the two limits it shows.
- Wall-clock time: `Date.now()` becomes a `now` parameter, and the `untilDate` of a timeout is not modelled.
- `Dialog.Type`: recognises a limit only as a plain decimal numeral with an optional minus sign. The source's `!isNaN(text)` plus `parseInt` also accepts forms like `1e3`, `0x10`, `1.5` and whitespace, with JavaScript's coercions. These are not modelled.
- `Decimal.Render`: models `toString` only for integers that print without an exponent. Chat ids are far below that bound.
- `Filter.ShouldDelete`: counts characters, where JavaScript counts UTF-16 code units. The verdict is the same either way, because any character outside ASCII already fails the pattern.
- Unknown `config_<x>` suffixes: `Configure` carries only timeout or ban. The source treats any other suffix like ban on confirm. Callback data come only from the bot's own keyboards.
- The chat kind of a callback: no state change depends on it. The group-chat redirect at index.js:141-149 only sends a message after the session is set.
- `/start config` in private chat, `/help`'s admin check and `/privacy` (index.js:240-297): these change no state. They are modelled only as the texts that skip the filter.
- Interleaving of handlers across `await`s: each event is handled atomically.
- What happens after a handler throws: a run stops at the first fault.
- Duration presets and enable flags of the admin mini-app (public/js/app.js:10-13): the bot in `index.js` never reads them.

=== FILE: basics.dfy ===
/** Small value types shared by every module of the model. */
module Basics {

  /** A value that may be absent; stands for JavaScript's `undefined`
      next to a present value. */
  datatype Option<+T> = None | Some(value: T)

  /** `s.startsWith(prefix)` on JavaScript strings. */
  predicate StartsWith(s: string, prefix: string) {
    |prefix| <= |s| && s[..|prefix|] == prefix
  }
}

=== FILE: bot.dfy ===
/** The whole bot: the message handler and the callback handler over the
    three in-memory maps, and properties that span the filter and the
    configuration dialog. */
module Bot {
  import opened Basics
  import opened Decimal
  import opened Members
  import opened Settings
  import opened Filter
  import opened Dialog

  /** `spamTracker`, `groupSettings` and `configSessions`. */
  datatype State = State(counters: Counters, settings: Store, sessions: Sessions)

  function ConfigOf(st: State): Config {
    Config(st.sessions, st.settings)
  }

  /** Texts the command branches answer and return on, before the filter:
      anything starting with `/start`, and exactly `/help` or `/privacy`. */
  predicate IsRoutedCommand(text: Option<string>) {
    text.Some? && (StartsWith(text.value, "/start") || text.value == "/help" || text.value == "/privacy")
  }

  /** The state after a message, and the filter's verdict when the filter ran. */
  datatype Outcome = Outcome(state: State, verdict: Option<Verdict>)

  /** The `message` handler: the private-chat dialog branch, then the
      command branches, then the filter. */
  function OnMessage(st: State, m: Message, members: Directory, deleted: bool, now: int): (r: Outcome)
    ensures r.state.settings == st.settings
    ensures m.chat.kind != Private ==> r.state.sessions == st.sessions
    ensures m.chat.kind == Private ==> r.state.counters == st.counters
    ensures IsRoutedCommand(m.text) && m.chat.kind != Private ==> r == Outcome(st, None)
    ensures m.chat.kind != Private && !IsRoutedCommand(m.text) ==>
      r.verdict == Some(Moderate(st.counters, st.settings, members, m, deleted, now).verdict)
    ensures m.chat.kind != Private && !IsRoutedCommand(m.text) ==>
      r.state.counters == Moderate(st.counters, st.settings, members, m, deleted, now).counters
    ensures m.chat.kind == Private ==>
      r.state.sessions == Type(ConfigOf(st), m.sender, m.text, members).config.sessions
    ensures forall v | v in st.counters :: v in r.state.counters && CountOf(st.counters, v) <= CountOf(r.state.counters, v)
  {
    var typed := if m.chat.kind == Private then Type(ConfigOf(st), m.sender, m.text, members) else Typed.Typed(ConfigOf(st), false);
    if typed.consumed then
      Outcome(st.(sessions := typed.config.sessions), None)
    else if IsRoutedCommand(m.text) then
      Outcome(st, None)
    else
      var f := Moderate(st.counters, st.settings, members, m, deleted, now);
      Outcome(st.(counters := f.counters), Some(f.verdict))
  }

  datatype Answer = Answer(state: State, fault: Option<Fault>)

  /** The `callback_query` handler. */
  function OnCallback(st: State, user: int, b: Button, io: CallbackIo): (r: Answer)
    ensures r.state.counters == st.counters
    ensures b != ConfirmConfig ==> r.state.settings == st.settings
    ensures st.settings.Keys <= r.state.settings.Keys
    ensures var h := Press(ConfigOf(st), user, b, io);
      r.state.sessions == h.config.sessions && r.state.settings == h.config.settings && r.fault == h.fault
  {
    var h := Press(ConfigOf(st), user, b, io);
    Answer(State(st.counters, h.config.settings, h.config.sessions), h.fault)
  }

  /** The thresholds the help panel of chat `chatId` shows. */
  function HelpPanel(store: Store, chatId: int): GroupSettings {
    Effective(store, Render(chatId))
  }

  /** The platform events the bot reacts to, each with the platform's answers
      for it. */
  datatype Event =
    | Posted(msg: Message, members: Directory, deleted: bool, now: int)
    | Clicked(user: int, button: Button, io: CallbackIo)

  function Step(st: State, e: Event): Answer {
    match e
    case Posted(m, members, deleted, now) => Answer(OnMessage(st, m, members, deleted, now).state, None)
    case Clicked(user, b, io) => OnCallback(st, user, b, io)
  }

  /** Events handled in order until a handler throws. */
  function Run(st: State, es: seq<Event>): Answer
    decreases |es|
  {
    if |es| == 0 then Answer(st, None)
    else
      var a := Step(st, es[0]);
      if a.fault.Some? then a else Run(a.state, es[1..])
  }

  /** Over any run: violation counts never go down (no reset, not even on a
      ban), configured groups never lose their settings, and sessions at the
      confirmation step always carry a limit. */
  lemma {:induction false} RunInvariants(st: State, es: seq<Event>)
    requires ConfirmationHasLimit(ConfigOf(st))
    ensures var r := Run(st, es).state;
      && ConfirmationHasLimit(ConfigOf(r))
      && st.settings.Keys <= r.settings.Keys
      && forall v | v in st.counters :: v in r.counters && CountOf(st.counters, v) <= CountOf(r.counters, v)
    decreases |es|
  {
    if |es| > 0 {
      var a := Step(st, es[0]);
      match es[0] {
        case Posted(m, members, deleted, now) =>
          TypeKeepsConfirmationLimit(ConfigOf(st), m.sender, m.text, members);
        case Clicked(user, b, io) =>
          PressKeepsConfirmationLimit(ConfigOf(st), user, b, io);
      }
      if a.fault.None? {
        RunInvariants(a.state, es[1..]);
      }
    }
  }

  /** A non-admin's `/start ...` in a group is never deleted or counted,
      whatever else the text says. */
  lemma StartTextEscapesFilter(st: State, chat: Chat, sender: int, rest: string, members: Directory, deleted: bool, now: int)
    requires IsModerated(chat.kind)
    ensures OnMessage(st, Message(chat, sender, Some("/start" + rest)), members, deleted, now) == Outcome(st, None)
  {
    assert StartsWith("/start" + rest, "/start");
  }

  /** The filter uses a timeout limit of 2 and a ban limit of 10 in a group
      with no stored settings. */
  lemma DefaultsInFilter(st: State, m: Message, members: Directory, now: int)
    requires Render(m.chat.id) !in st.settings
    requires IsModerated(m.chat.kind) && !IsRoutedCommand(m.text)
    requires !IsUserAdmin(members, Render(m.chat.id), m.sender) && ShouldDelete(m.text)
    ensures OnMessage(st, m, members, true, now).verdict
      == Some(Enforced(Escalate(CountOf(st.counters, m.sender) + 1, GroupSettings(Some(2), Some(10)))))
  {
  }

  /** The help panel of a chat with no stored settings shows 2 and 10. */
  lemma DefaultsInHelp(store: Store, chatId: int)
    requires Render(chatId) !in store
    ensures HelpPanel(store, chatId) == GroupSettings(Some(2), Some(10))
  {
  }

  /** A confirmation for a group with no stored settings keeps the default
      (2 or 10) for the limit it does not set. */
  lemma DefaultsOnConfirm(st: State, admin: int, g: string, io: CallbackIo)
    requires g !in st.settings
    requires io.answered && admin in st.sessions && st.sessions[admin].groupId == Some(g)
    ensures var a := Other(st.sessions[admin].action);
      LimitOf(OnCallback(st, admin, ConfirmConfig, io).state.settings[g], a) == LimitOf(GroupSettings(Some(2), Some(10)), a)
  {
  }

  /** The help panel shows the thresholds the filter enforces in that chat. */
  lemma HelpShowsEnforcedLimits(st: State, m: Message, members: Directory, now: int)
    requires IsModerated(m.chat.kind) && !IsRoutedCommand(m.text)
    requires !IsUserAdmin(members, Render(m.chat.id), m.sender) && ShouldDelete(m.text)
    ensures OnMessage(st, m, members, true, now).verdict
      == Some(Enforced(Escalate(CountOf(st.counters, m.sender) + 1, HelpPanel(st.settings, m.chat.id))))
  {
  }

  /** A confirmed ban limit for a chat is the one the filter then applies
      there: the next counted violation in that chat is a ban exactly when the
      user's new count reaches the confirmed limit. */
  lemma ConfirmedBanLimitIsEnforced(st: State, admin: int, io: CallbackIo, m: Message, members: Directory, now: int, limit: int)
    requires io.answered
    requires admin in st.sessions
    requires st.sessions[admin].groupId == Some(Render(m.chat.id))
    requires st.sessions[admin].action == BanAction && st.sessions[admin].limit == Some(limit)
    requires IsModerated(m.chat.kind) && !IsRoutedCommand(m.text)
    requires !IsUserAdmin(members, Render(m.chat.id), m.sender) && ShouldDelete(m.text)
    ensures var st' := OnCallback(st, admin, ConfirmConfig, io).state;
      var o := OnMessage(st', m, members, true, now);
      && o.verdict.Some? && o.verdict.value.Enforced?
      && (o.verdict.value.decision == Ban <==> CountOf(st.counters, m.sender) + 1 >= limit)
  {
    var st' := OnCallback(st, admin, ConfirmConfig, io).state;
    assert Effective(st'.settings, Render(m.chat.id)).banLimit == Some(limit);
  }

  /** A dialog confirmed for a group reference that is not a decimal numeral
      (a username, an id with a stray character or a misplaced minus sign) stores settings the filter
      never reads: moderation in every chat is as before. */
  lemma ForeignReferenceIsInert(st: State, admin: int, io: CallbackIo, g: string)
    requires admin in st.sessions && st.sessions[admin].groupId == Some(g)
    requires Parse(g).None?
    ensures var st' := OnCallback(st, admin, ConfirmConfig, io).state;
      forall id :: HelpPanel(st'.settings, id) == HelpPanel(st.settings, id)
  {
    forall n ensures Render(n) != g {
      ParseRender(n);
    }
  }

  /** Confirming while the dialog is still at the limit step turns bans off
      for that chat: no message there is banned until its ban limit is
      confirmed again. */
  lemma ConfirmBeforeLimitDisablesBans(st: State, admin: int, chat: Chat, members: Directory, m: Message, members': Directory, deleted: bool, now: int)
    requires IsUserAdmin(members, Render(chat.id), admin)
    requires m.chat == chat
    ensures var io := CallbackIo(true, true);
      var c := Drive(ConfigOf(st), admin, [Pressed(Configure(BanAction), io), Texted(Some(Render(chat.id)), members), Pressed(ConfirmConfig, io)]).config;
      Moderate(st.counters, c.settings, members', m, deleted, now).verdict != Enforced(Ban)
  {
    var g := Render(chat.id);
    assert g != "" && !StartsWith(g, "/");
    ConfirmBeforeLimitStoresUndefined(ConfigOf(st), admin, BanAction, g, members);
  }
}

=== FILE: decimal.dfy ===
/** Decimal numerals: how the bot turns a numeric chat id into the text key of
    the settings map (`Number.prototype.toString`), and how it reads a number
    an admin typed (`parseInt` on a plain decimal numeral). */
module Decimal {
  import opened Basics

  predicate IsDigit(c: char) {
    '0' <= c <= '9'
  }

  predicate AllDigits(s: string) {
    forall i | 0 <= i < |s| :: IsDigit(s[i])
  }

  function DigitChar(d: nat): (c: char)
    requires d < 10
    ensures IsDigit(c) && c as int - '0' as int == d
  {
    ('0' as int + d) as char
  }

  /** The digits of `n`, most significant first, with no leading zero. */
  function Digits(n: nat): (s: string)
    ensures 0 < |s| && AllDigits(s)
    ensures s[0] == '0' <==> n == 0
    decreases n
  {
    if n < 10 then [DigitChar(n)] else Digits(n / 10) + [DigitChar(n % 10)]
  }

  /** `n.toString()` for an integer-valued JavaScript number. */
  function Render(n: int): (s: string)
    ensures 0 < |s|
    ensures s[0] == '-' <==> n < 0
    ensures n >= 0 ==> AllDigits(s)
    ensures forall i | 0 < i < |s| :: IsDigit(s[i])
  {
    if n < 0 then "-" + Digits(-n) else Digits(n)
  }

  /** The number a string of digits denotes. */
  function ValueOf(s: string): nat
    requires AllDigits(s)
    decreases |s|
  {
    if |s| == 0 then 0 else 10 * ValueOf(s[..|s| - 1]) + (s[|s| - 1] as int - '0' as int)
  }

  /** The integer denoted by a decimal numeral with an optional leading minus
      sign, or `None` for any other text. */
  function Parse(s: string): Option<int> {
    if 2 <= |s| && s[0] == '-' && AllDigits(s[1..]) then Some(-(ValueOf(s[1..]) as int))
    else if 1 <= |s| && AllDigits(s) then Some(ValueOf(s))
    else None
  }

  lemma {:induction false} ValueOfDigits(n: nat)
    ensures ValueOf(Digits(n)) == n
    decreases n
  {
    var s := Digits(n);
    if n < 10 {
      assert s[..|s| - 1] == [];
    } else {
      assert s[..|s| - 1] == Digits(n / 10);
      ValueOfDigits(n / 10);
    }
  }

  /** Reading back a rendered integer gives the integer. */
  lemma ParseRender(n: int)
    ensures Parse(Render(n)) == Some(n)
  {
    if n < 0 {
      assert Render(n)[1..] == Digits(-n);
      ValueOfDigits(-n);
    } else {
      ValueOfDigits(n);
    }
  }

  /** Distinct chat ids have distinct keys. */
  lemma RenderInjective(a: int, b: int)
    ensures Render(a) == Render(b) ==> a == b
  {
    ParseRender(a);
    ParseRender(b);
  }

  /** A text holding a character that is neither a digit nor a minus sign is
      the rendering of no integer. */
  lemma NotARendering(k: string, i: int)
    requires 0 <= i < |k| && !IsDigit(k[i]) && k[i] != '-'
    ensures forall n :: Render(n) != k
  {
  }
}

=== FILE: dialog.dfy ===
/** The configuration dialog: a per-admin session driven by inline-keyboard
    buttons and by text typed in the private chat, which on confirmation
    writes one limit into the settings store. */
module Dialog {
  import opened Basics
  import opened Decimal
  import opened Members
  import opened Settings

  datatype Stage = ChooseGroup | ChooseLimit | Confirmation

  /** `{ step, action, groupId?, limit? }` */
  datatype Session = Session(stage: Stage, action: ConfigAction, groupId: Option<string>, limit: Option<int>)

  /** The `configSessions` map, keyed by the admin's user id: at most one
      live session per admin. */
  type Sessions = map<int, Session>

  datatype Config = Config(sessions: Sessions, settings: Store)

  /** The callback data of the bot's inline buttons, decoded:
      `privacy_policy`, `config_<action>`, `set_limit_<n>`, `confirm_config`,
      `back_to_action`, `back_to_group`, `back_to_limit`. */
  datatype Button =
    | PrivacyPolicy
    | Configure(action: ConfigAction)
    | SetLimit(n: int)
    | ConfirmConfig
    | BackToAction
    | BackToGroup
    | BackToLimit

  /** The platform's answers while a button press is handled: whether
      `answerCallbackQuery` succeeded (every branch awaits it first) and
      whether the confirmation's `editMessageText` succeeded. */
  datatype CallbackIo = CallbackIo(answered: bool, edited: bool)

  /** Why a handler stopped with an exception. */
  datatype Fault =
    | AnswerFailed      // answerCallbackQuery threw before anything changed
    | MissingGroupId    // confirm_config on a session with no group id
    | EditFailed        // the confirmation edit threw after the settings write

  datatype Handled = Handled(config: Config, fault: Option<Fault>)

  /** Every session other than `user`'s is as it was. */
  ghost predicate OthersUnchanged(before: Sessions, after: Sessions, user: int) {
    forall v | v != user :: (v in before <==> v in after) && (v in before ==> after[v] == before[v])
  }

  /** `back_to_group` / `back_to_limit`: move an existing session to `stage`. */
  function Restage(c: Config, user: int, stage: Stage): Config {
    if user in c.sessions then c.(sessions := c.sessions[user := c.sessions[user].(stage := stage)]) else c
  }

  /** `confirm_config` after the callback was answered. */
  function Confirm(c: Config, user: int, edited: bool): Handled {
    if user !in c.sessions then Handled(c, None)
    else
      var s := c.sessions[user];
      match s.groupId
      case None => Handled(c, Some(MissingGroupId))
      case Some(g) =>
        var settings := Apply(c.settings, g, s.action, s.limit);
        if edited then Handled(Config(c.sessions - {user}, settings), None)
        else Handled(Config(c.sessions, settings), Some(EditFailed))
  }

  /** The `callback_query` handler's effect on sessions and settings when
      `user` presses `b`. */
  function Press(c: Config, user: int, b: Button, io: CallbackIo): (r: Handled)
    ensures OthersUnchanged(c.sessions, r.config.sessions, user)
    ensures b != ConfirmConfig ==> r.config.settings == c.settings
    ensures !io.answered ==> r == Handled(c, Some(AnswerFailed))
    ensures r.fault == Some(MissingGroupId) ==> r.config == c
    ensures r.fault.Some? ==> r.fault == Some(AnswerFailed) || b == ConfirmConfig
    ensures b == PrivacyPolicy ==> r.config == c
    ensures b == ConfirmConfig && user !in c.sessions ==> r.config == c
    ensures b == ConfirmConfig && r.fault == Some(EditFailed) ==> r.config.sessions == c.sessions
    ensures io.answered && b != ConfirmConfig ==> r.fault.None?
    ensures io.answered && b == ConfirmConfig && user in c.sessions && c.sessions[user].groupId.None?
      ==> r == Handled(c, Some(MissingGroupId))
  {
    if !io.answered then Handled(c, Some(AnswerFailed))
    else
      match b
      case PrivacyPolicy => Handled(c, None)
      case Configure(a) =>
        Handled(c.(sessions := c.sessions[user := Session(ChooseGroup, a, None, None)]), None)
      case SetLimit(n) =>
        if user in c.sessions then
          Handled(c.(sessions := c.sessions[user := c.sessions[user].(limit := Some(n), stage := Confirmation)]), None)
        else Handled(c, None)
      case ConfirmConfig => Confirm(c, user, io.edited)
      case BackToAction => Handled(c.(sessions := c.sessions - {user}), None)
      case BackToGroup => Handled(Restage(c, user, ChooseGroup), None)
      case BackToLimit => Handled(Restage(c, user, ChooseLimit), None)
  }

  /** The private-chat text branch of the message handler: the configuration
      after the text, and whether the branch consumed it (returned before the
      command and filter branches). */
  datatype Typed = Typed(config: Config, consumed: bool)

  /** Text `text` from `user` in a private chat. `members` answers the admin
      check on the typed group reference. */
  function Type(c: Config, user: int, text: Option<string>, members: Directory): (r: Typed)
    ensures r.config.settings == c.settings
    ensures !r.consumed ==> r.config == c
    ensures OthersUnchanged(c.sessions, r.config.sessions, user)
    ensures r.config.sessions.Keys == c.sessions.Keys
    ensures r.consumed <==>
      && user in c.sessions && text.Some? && text.value != ""
      && ((c.sessions[user].stage == ChooseGroup && !StartsWith(text.value, "/"))
          || (c.sessions[user].stage == ChooseLimit && Parse(text.value).Some?))
  {
    if user !in c.sessions || text.None? then Typed(c, false)
    else
      var s := c.sessions[user];
      var t := text.value;
      if s.stage == ChooseGroup && t != "" && !StartsWith(t, "/") then
        if IsUserAdmin(members, t, user) then
          Typed(c.(sessions := c.sessions[user := s.(groupId := Some(t), stage := ChooseLimit)]), true)
        else Typed(c, true)
      else if s.stage == ChooseLimit && t != "" && Parse(t).Some? then
        Typed(c.(sessions := c.sessions[user := s.(limit := Parse(t), stage := Confirmation)]), true)
      else Typed(c, false)
  }

  /** `config_<a>` discards whatever session the user had and starts a fresh
      one at the group step, whatever chat the button was in. */
  lemma ConfigureStartsFresh(c: Config, user: int, a: ConfigAction, io: CallbackIo)
    requires io.answered
    ensures var r := Press(c, user, Configure(a), io);
      && r.fault.None?
      && user in r.config.sessions
      && r.config.sessions[user] == Session(ChooseGroup, a, None, None)
  {
  }

  /** `set_limit_<n>` on an existing session records the limit and moves to
      confirmation from any stage; without a session it changes nothing. */
  lemma SetLimitConfirms(c: Config, user: int, n: int, io: CallbackIo)
    requires io.answered
    ensures var r := Press(c, user, SetLimit(n), io);
      && r.fault.None?
      && (user in c.sessions ==>
            && user in r.config.sessions
            && r.config.sessions[user].stage == Confirmation
            && r.config.sessions[user].limit == Some(n)
            && r.config.sessions[user].action == c.sessions[user].action
            && r.config.sessions[user].groupId == c.sessions[user].groupId)
      && (user !in c.sessions ==> r.config == c)
  {
  }

  /** `confirm_config` on a session naming a group changes exactly the limit
      the session's action names, keeps the group's other limit (its default
      when the group had no settings), touches no other group, and ends the
      session once the confirmation message is edited. */
  lemma ConfirmWritesChosenLimit(c: Config, user: int, g: string, io: CallbackIo)
    requires io.answered
    requires user in c.sessions && c.sessions[user].groupId == Some(g)
    ensures var s := c.sessions[user];
      var r := Press(c, user, ConfirmConfig, io);
      && g in r.config.settings
      && LimitOf(r.config.settings[g], s.action) == s.limit
      && LimitOf(r.config.settings[g], Other(s.action)) == LimitOf(Effective(c.settings, g), Other(s.action))
      && (forall k | k != g :: Effective(r.config.settings, k) == Effective(c.settings, k))
      && (io.edited <==> user !in r.config.sessions)
      && (io.edited <==> r.fault.None?)
  {
  }

  /** `back_to_action` ends the session. */
  lemma BackToActionEndsSession(c: Config, user: int, io: CallbackIo)
    requires io.answered
    ensures var r := Press(c, user, BackToAction, io);
      r.fault.None? && user !in r.config.sessions && r.config.settings == c.settings
  {
  }

  /** `back_to_group` and `back_to_limit` change only the stage. */
  lemma BackChangesOnlyStage(c: Config, user: int, b: Button, io: CallbackIo)
    requires io.answered && (b == BackToGroup || b == BackToLimit)
    ensures var r := Press(c, user, b, io);
      && r.fault.None?
      && (user in r.config.sessions <==> user in c.sessions)
      && (user in c.sessions ==>
            r.config.sessions[user] == c.sessions[user].(stage := if b == BackToGroup then ChooseGroup else ChooseLimit))
  {
  }

  /** At the group step, a reference from someone who is not its admin leaves
      everything as it was; from its admin it is stored and the dialog moves
      on to the limit step. Either way the text is consumed. */
  lemma GroupStepNeedsAdmin(c: Config, user: int, t: string, members: Directory)
    requires user in c.sessions && c.sessions[user].stage == ChooseGroup
    requires t != "" && !StartsWith(t, "/")
    ensures var r := Type(c, user, Some(t), members);
      && r.consumed
      && (!IsUserAdmin(members, t, user) ==> r.config == c)
      && (IsUserAdmin(members, t, user) ==>
            r.config.sessions[user] == c.sessions[user].(groupId := Some(t), stage := ChooseLimit))
  {
  }

  /** At the limit step, a numeral is recorded as the limit and the dialog
      moves to confirmation. */
  lemma LimitStepTakesNumeral(c: Config, user: int, t: string, n: int, members: Directory)
    requires user in c.sessions && c.sessions[user].stage == ChooseLimit
    requires Parse(t) == Some(n)
    ensures var r := Type(c, user, Some(t), members);
      && r.consumed
      && r.config.sessions[user] == c.sessions[user].(limit := Some(n), stage := Confirmation)
  {
  }

  /** Every session at the confirmation step carries a limit. */
  predicate ConfirmationHasLimit(c: Config) {
    forall u | u in c.sessions && c.sessions[u].stage == Confirmation :: c.sessions[u].limit.Some?
  }

  lemma PressKeepsConfirmationLimit(c: Config, user: int, b: Button, io: CallbackIo)
    requires ConfirmationHasLimit(c)
    ensures ConfirmationHasLimit(Press(c, user, b, io).config)
  {
  }

  lemma TypeKeepsConfirmationLimit(c: Config, user: int, text: Option<string>, members: Directory)
    requires ConfirmationHasLimit(c)
    ensures ConfirmationHasLimit(Type(c, user, text, members).config)
  {
  }

  /** A button press, or a text, from one user. */
  datatype Input = Pressed(b: Button, io: CallbackIo) | Texted(text: Option<string>, members: Directory)

  /** One user's inputs in order. A handler that throws ends the run: the
      rejection is not caught anywhere in the bot. */
  function Drive(c: Config, user: int, inputs: seq<Input>): (r: Handled)
    decreases |inputs|
  {
    if |inputs| == 0 then Handled(c, None)
    else
      match inputs[0]
      case Pressed(b, io) =>
        var h := Press(c, user, b, io);
        if h.fault.Some? then h else Drive(h.config, user, inputs[1..])
      case Texted(text, members) =>
        Drive(Type(c, user, text, members).config, user, inputs[1..])
  }

  /** Neither a button press nor a text ever leaves a session at the
      confirmation step without a limit. */
  lemma {:induction false} DriveKeepsConfirmationLimit(c: Config, user: int, inputs: seq<Input>)
    requires ConfirmationHasLimit(c)
    ensures ConfirmationHasLimit(Drive(c, user, inputs).config)
    decreases |inputs|
  {
    if |inputs| > 0 {
      match inputs[0]
      case Pressed(b, io) =>
        PressKeepsConfirmationLimit(c, user, b, io);
        var h := Press(c, user, b, io);
        if h.fault.None? {
          DriveKeepsConfirmationLimit(h.config, user, inputs[1..]);
        }
      case Texted(text, members) =>
        TypeKeepsConfirmationLimit(c, user, text, members);
        DriveKeepsConfirmationLimit(Type(c, user, text, members).config, user, inputs[1..]);
    }
  }

  /** `set_limit_<n>` pressed while the dialog is still at the group step
      reaches confirmation without a group, and confirming then throws. */
  lemma ConfirmWithoutGroupThrows(c: Config, user: int, a: ConfigAction, n: int)
    ensures var io := CallbackIo(true, true);
      Drive(c, user, [Pressed(Configure(a), io), Pressed(SetLimit(n), io), Pressed(ConfirmConfig, io)])
        == Handled(c.(sessions := c.sessions[user := Session(Confirmation, a, None, Some(n))]), Some(MissingGroupId))
  {
    var io := CallbackIo(true, true);
    var c1 := c.(sessions := c.sessions[user := Session(ChooseGroup, a, None, None)]);
    var c2 := c.(sessions := c.sessions[user := Session(Confirmation, a, None, Some(n))]);
    assert Press(c, user, Configure(a), io) == Handled(c1, None);
    assert Press(c1, user, SetLimit(n), io) == Handled(c2, None);
    assert Press(c2, user, ConfirmConfig, io) == Handled(c2, Some(MissingGroupId));
    var inputs := [Pressed(Configure(a), io), Pressed(SetLimit(n), io), Pressed(ConfirmConfig, io)];
    assert Drive(c, user, inputs) == Drive(c1, user, inputs[1..]);
    assert Drive(c1, user, inputs[1..]) == Drive(c2, user, inputs[2..]);
  }

  /** Confirming while the dialog is still at the limit step stores
      `undefined` as the chosen limit. */
  lemma ConfirmBeforeLimitStoresUndefined(c: Config, user: int, a: ConfigAction, g: string, members: Directory)
    requires g != "" && !StartsWith(g, "/") && IsUserAdmin(members, g, user)
    ensures var io := CallbackIo(true, true);
      var r := Drive(c, user, [Pressed(Configure(a), io), Texted(Some(g), members), Pressed(ConfirmConfig, io)]);
      && r.fault.None?
      && user !in r.config.sessions
      && LimitOf(Effective(r.config.settings, g), a).None?
      && LimitOf(Effective(r.config.settings, g), Other(a)) == LimitOf(Effective(c.settings, g), Other(a))
  {
    var io := CallbackIo(true, true);
    var c1 := c.(sessions := c.sessions[user := Session(ChooseGroup, a, None, None)]);
    var c2 := c.(sessions := c.sessions[user := Session(ChooseLimit, a, Some(g), None)]);
    assert Press(c, user, Configure(a), io) == Handled(c1, None);
    assert Type(c1, user, Some(g), members).config == c2;
    var inputs := [Pressed(Configure(a), io), Texted(Some(g), members), Pressed(ConfirmConfig, io)];
    var c3 := Config(c2.sessions - {user}, Apply(c2.settings, g, a, None));
    assert Press(c2, user, ConfirmConfig, io) == Handled(c3, None);
    assert Drive(c3, user, inputs[3..]) == Handled(c3, None);
    assert Drive(c2, user, inputs[2..]) == Handled(c3, None);
    assert Drive(c1, user, inputs[1..]) == Handled(c3, None);
    assert Drive(c, user, inputs) == Handled(c3, None);
  }
}

=== FILE: filter.dfy ===
/** The group message filter: which messages are deleted, how violations are
    counted, and which penalty a count earns. */
module Filter {
  import opened Basics
  import opened Decimal
  import opened Members
  import opened Settings

  /** `msg.chat.type` */
  datatype ChatKind = Private | Group | Supergroup | Channel

  datatype Chat = Chat(id: int, kind: ChatKind)

  /** An inbound message: its chat, its sender's user id, and its text, absent
      for media, stickers and other non-text messages. */
  datatype Message = Message(chat: Chat, sender: int, text: Option<string>)

  /** Only group and supergroup chats are filtered. */
  predicate IsModerated(kind: ChatKind) {
    kind == Group || kind == Supergroup
  }

  predicate IsAsciiAlnum(c: char) {
    'a' <= c <= 'z' || 'A' <= c <= 'Z' || '0' <= c <= '9'
  }

  /** The red packet code format the groups are for: exactly 8 or exactly 10
      ASCII letters and digits. */
  predicate IsCode(s: string) {
    (|s| == 8 || |s| == 10) && forall i | 0 <= i < |s| :: IsAsciiAlnum(s[i])
  }

  /** `/^[a-zA-Z0-9]+$/.test(s)`, matched one character at a time. */
  function MatchesAlnum(s: string): (r: bool)
    ensures r <==> 0 < |s| && forall i | 0 <= i < |s| :: IsAsciiAlnum(s[i])
    decreases |s|
  {
    if |s| == 0 then false
    else IsAsciiAlnum(s[0]) && (|s| == 1 || MatchesAlnum(s[1..]))
  }

  /** The filter's `shouldDelete`: a missing or empty text, a text failing the
      pattern, or a text of the wrong length. Exactly the texts that are not
      codes. */
  function ShouldDelete(text: Option<string>): (r: bool)
    ensures r <==> !(text.Some? && IsCode(text.value))
  {
    match text
    case None => true
    case Some(t) => t == "" || !MatchesAlnum(t) || !(|t| == 8 || |t| == 10)
  }

  /** Well-formed codes pass the filter. */
  lemma ValidCodeExamples()
    ensures !ShouldDelete(Some("AB12CD34"))
    ensures !ShouldDelete(Some("ab12CD34ef"))
  {
    var s, t := "AB12CD34", "ab12CD34ef";
    assert IsCode(s) by {
      forall i | 0 <= i < |s| ensures IsAsciiAlnum(s[i]) {
        assert s[i] in {'A', 'B', 'C', 'D', '1', '2', '3', '4'};
      }
    }
    assert IsCode(t) by {
      forall i | 0 <= i < |t| ensures IsAsciiAlnum(t[i]) {
        assert t[i] in {'a', 'b', 'e', 'f', 'C', 'D', '1', '2', '3', '4'};
      }
    }
  }

  /** A wrong length, a character outside the class, or no text at all gets
      the message deleted. */
  lemma InvalidCodeExamples()
    ensures ShouldDelete(Some("AB12CD345"))
    ensures ShouldDelete(Some("ab12-D34"))
    ensures ShouldDelete(Some("AB12CD34\n"))
    ensures ShouldDelete(Some(""))
    ensures ShouldDelete(None)
  {
    assert "ab12-D34"[4] == '-';
    assert "AB12CD34\n"[8] == '\n';
  }

  /** One user's entry in the violation tracker. `lastSpam` is the abstract
      clock reading of the last counted violation. */
  datatype Tracker = Tracker(count: nat, lastSpam: int)

  /** The violation tracker: keyed by user id alone, shared by every group. */
  type Counters = map<int, Tracker>

  /** A user's violation count; an absent entry counts as zero. */
  function CountOf(counters: Counters, user: int): nat {
    if user in counters then counters[user].count else 0
  }

  datatype Decision = Warn | Timeout | Ban

  /** `count >= limit` in JavaScript: a count never reaches an `undefined` limit. */
  predicate Reached(count: int, limit: Option<int>) {
    limit.Some? && count >= limit.value
  }

  /** The escalation rule: the ban threshold is tested first, then the
      timeout threshold, and anything below both earns a warning. */
  function Escalate(count: int, s: GroupSettings): Decision {
    if Reached(count, s.banLimit) then Ban
    else if Reached(count, s.timeoutLimit) then Timeout
    else Warn
  }

  function Severity(d: Decision): nat {
    match d
    case Warn => 0
    case Timeout => 1
    case Ban => 2
  }

  /** A larger count never earns a milder penalty under the same settings. */
  lemma EscalateMonotone(n: int, m: int, s: GroupSettings)
    requires n <= m
    ensures Severity(Escalate(n, s)) <= Severity(Escalate(m, s))
  {
  }

  /** When a count meets both thresholds, the ban wins. */
  lemma BanWinsTies(n: int, s: GroupSettings)
    requires Reached(n, s.timeoutLimit) && Reached(n, s.banLimit)
    ensures Escalate(n, s) == Ban
  {
  }

  /** What the filter did with one message. */
  datatype Verdict =
    | NotModerated          // not a group or supergroup chat
    | AdminExempt           // the sender administers the chat
    | Accepted              // a well-formed code
    | DeleteFailed          // the delete call threw; the error was only logged
    | Enforced(decision: Decision)

  datatype Filtered = Filtered(counters: Counters, verdict: Verdict)

  /** The filtering step of the message handler. `members` answers the admin
      check on the chat's id, `deleted` is whether the platform's delete call
      succeeded, and `now` is the clock reading. */
  function Moderate(counters: Counters, store: Store, members: Directory, m: Message, deleted: bool, now: int): (r: Filtered)
    ensures r.verdict == NotModerated <==> !IsModerated(m.chat.kind)
    ensures r.verdict == AdminExempt <==>
      IsModerated(m.chat.kind) && IsUserAdmin(members, Render(m.chat.id), m.sender)
    ensures r.verdict == Accepted <==>
      IsModerated(m.chat.kind) && !IsUserAdmin(members, Render(m.chat.id), m.sender)
      && m.text.Some? && IsCode(m.text.value)
    ensures r.verdict == DeleteFailed <==>
      IsModerated(m.chat.kind) && !IsUserAdmin(members, Render(m.chat.id), m.sender)
      && ShouldDelete(m.text) && !deleted
    ensures CountOf(r.counters, m.sender) == CountOf(counters, m.sender) + (if r.verdict.Enforced? then 1 else 0)
    ensures r.verdict.Enforced? ==>
      && r.counters[m.sender].lastSpam == now
      && r.verdict.decision == Escalate(CountOf(r.counters, m.sender), Effective(store, Render(m.chat.id)))
    ensures !r.verdict.Enforced? ==> r.counters == counters
    ensures forall v | v != m.sender :: v in r.counters <==> v in counters
    ensures forall v | v != m.sender && v in counters :: r.counters[v] == counters[v]
  {
    if !IsModerated(m.chat.kind) then Filtered(counters, NotModerated)
    else if IsUserAdmin(members, Render(m.chat.id), m.sender) then Filtered(counters, AdminExempt)
    else if !ShouldDelete(m.text) then Filtered(counters, Accepted)
    else if !deleted then Filtered(counters, DeleteFailed)
    else
      var settings := Effective(store, Render(m.chat.id));
      var count := CountOf(counters, m.sender) + 1;
      Filtered(counters[m.sender := Tracker(count, now)], Enforced(Escalate(count, settings)))
  }

  /** A ban leaves the user's entry in place, at or above the ban limit. */
  lemma BanKeepsCount(counters: Counters, store: Store, members: Directory, m: Message, deleted: bool, now: int)
    requires Moderate(counters, store, members, m, deleted, now).verdict == Enforced(Ban)
    ensures var r := Moderate(counters, store, members, m, deleted, now);
      && m.sender in r.counters
      && Reached(CountOf(r.counters, m.sender), Effective(store, Render(m.chat.id)).banLimit)
  {
  }

  /** A group whose ban limit is `undefined` never bans. */
  lemma UndefinedBanLimitNeverBans(counters: Counters, store: Store, members: Directory, m: Message, deleted: bool, now: int)
    requires Effective(store, Render(m.chat.id)).banLimit.None?
    ensures Moderate(counters, store, members, m, deleted, now).verdict != Enforced(Ban)
  {
  }

  /** One message as delivered, with the platform's answers for it. */
  datatype Delivery = Delivery(msg: Message, members: Directory, deleted: bool, now: int)

  datatype Run = Run(counters: Counters, verdicts: seq<Verdict>)

  /** The filter applied to a stream of messages in order, the settings
      staying fixed. */
  function Replay(counters: Counters, store: Store, ds: seq<Delivery>): (r: Run)
    ensures |r.verdicts| == |ds|
    decreases |ds|
  {
    if |ds| == 0 then Run(counters, [])
    else
      var f := Moderate(counters, store, ds[0].members, ds[0].msg, ds[0].deleted, ds[0].now);
      var rest := Replay(f.counters, store, ds[1..]);
      Run(rest.counters, [f.verdict] + rest.verdicts)
  }

  /** How many of the messages were from `user` and were counted. */
  function Violations(ds: seq<Delivery>, vs: seq<Verdict>, user: int): nat
    requires |ds| == |vs|
    decreases |ds|
  {
    if |ds| == 0 then 0
    else (if ds[0].msg.sender == user && vs[0].Enforced? then 1 else 0) + Violations(ds[1..], vs[1..], user)
  }

  /** The tracker counts exactly the violations it enforced: never more, never
      fewer, and it is never reset. */
  lemma {:induction false} CounterCountsViolations(counters: Counters, store: Store, ds: seq<Delivery>, user: int)
    ensures var r := Replay(counters, store, ds);
      CountOf(r.counters, user) == CountOf(counters, user) + Violations(ds, r.verdicts, user)
    decreases |ds|
  {
    if |ds| > 0 {
      var f := Moderate(counters, store, ds[0].members, ds[0].msg, ds[0].deleted, ds[0].now);
      var rest := Replay(f.counters, store, ds[1..]);
      CounterCountsViolations(f.counters, store, ds[1..], user);
      var r := Replay(counters, store, ds);
      assert r.verdicts[0] == f.verdict;
      assert r.verdicts[1..] == rest.verdicts;
    }
  }

  /** Counts never go down and users never leave the tracker. */
  lemma {:induction false} CountsNeverDecrease(counters: Counters, store: Store, ds: seq<Delivery>)
    ensures var r := Replay(counters, store, ds);
      forall v | v in counters :: v in r.counters && CountOf(counters, v) <= CountOf(r.counters, v)
    decreases |ds|
  {
    if |ds| > 0 {
      var f := Moderate(counters, store, ds[0].members, ds[0].msg, ds[0].deleted, ds[0].now);
      CountsNeverDecrease(f.counters, store, ds[1..]);
    }
  }

  /** A message the filter will count against `user` under the limits `s`:
      from `user`, in a moderated chat whose effective limits are `s`, not
      from an admin of it, not a code, and successfully deleted. */
  predicate CountedViolation(store: Store, d: Delivery, user: int, s: GroupSettings) {
    && d.msg.sender == user
    && IsModerated(d.msg.chat.kind)
    && !IsUserAdmin(d.members, Render(d.msg.chat.id), user)
    && ShouldDelete(d.msg.text)
    && d.deleted
    && Effective(store, Render(d.msg.chat.id)) == s
  }

  /** Consecutive violations by one user, in whichever groups share the same
      limits, earn the penalties of the counts c+1, c+2, ... in turn. */
  lemma {:induction false} EscalationSequence(counters: Counters, store: Store, ds: seq<Delivery>, user: int, s: GroupSettings)
    requires forall i | 0 <= i < |ds| :: CountedViolation(store, ds[i], user, s)
    ensures var r := Replay(counters, store, ds);
      && CountOf(r.counters, user) == CountOf(counters, user) + |ds|
      && forall i | 0 <= i < |ds| :: r.verdicts[i] == Enforced(Escalate(CountOf(counters, user) + i + 1, s))
    decreases |ds|
  {
    if |ds| > 0 {
      var c := CountOf(counters, user);
      var f := Moderate(counters, store, ds[0].members, ds[0].msg, ds[0].deleted, ds[0].now);
      assert CountOf(f.counters, user) == c + 1;
      var rest := Replay(f.counters, store, ds[1..]);
      EscalationSequence(f.counters, store, ds[1..], user, s);
      var r := Replay(counters, store, ds);
      assert r.verdicts[0] == f.verdict;
      forall i | 1 <= i < |ds|
        ensures r.verdicts[i] == Enforced(Escalate(c + i + 1, s))
      {
        assert r.verdicts[i] == rest.verdicts[i - 1];
      }
    }
  }

  /** With the default limits, the first ten violations earn a warning, then
      eight timeouts, then a ban. */
  lemma DefaultLadder(counters: Counters, store: Store, ds: seq<Delivery>, user: int)
    requires user !in counters
    requires |ds| == 10
    requires forall i | 0 <= i < |ds| :: CountedViolation(store, ds[i], user, Defaults)
    ensures Replay(counters, store, ds).verdicts ==
      [Enforced(Warn)] + seq(8, _ => Enforced(Timeout)) + [Enforced(Ban)]
  {
    EscalationSequence(counters, store, ds, user, Defaults);
  }

  /** No reset on ban: once a user's count has reached the ban limit, every
      later counted violation by that user under the same limits is a ban
      again, in any group, whatever other messages come in between. */
  lemma {:induction false} BanIsSticky(counters: Counters, store: Store, ds: seq<Delivery>, user: int, s: GroupSettings)
    requires Reached(CountOf(counters, user), s.banLimit)
    ensures forall i | 0 <= i < |ds| && CountedViolation(store, ds[i], user, s) ::
      Replay(counters, store, ds).verdicts[i] == Enforced(Ban)
    decreases |ds|
  {
    if |ds| > 0 {
      var f := Moderate(counters, store, ds[0].members, ds[0].msg, ds[0].deleted, ds[0].now);
      assert CountOf(counters, user) <= CountOf(f.counters, user);
      BanIsSticky(f.counters, store, ds[1..], user, s);
      var r := Replay(counters, store, ds);
      var rest := Replay(f.counters, store, ds[1..]);
      assert r.verdicts[0] == f.verdict;
      forall i | 1 <= i < |ds| && CountedViolation(store, ds[i], user, s)
        ensures r.verdicts[i] == Enforced(Ban)
      {
        assert ds[1..][i - 1] == ds[i];
        assert r.verdicts[i] == rest.verdicts[i - 1];
      }
    }
  }
}

=== FILE: members.dfy ===
/** The chat platform's membership lookup, seen from the bot: an oracle. */
module Members {
  import opened Basics

  /** The statuses the platform reports for a user in a chat. */
  datatype MemberStatus = Creator | Administrator | Member | Restricted | Left | Kicked

  /** The answers of the platform's `getChatMember(chat, user)`. The chat is
      named by a reference string: a numeric id in decimal, or whatever text an
      admin typed. `None` is a call that failed (unknown chat, bot not a member,
      network error). */
  type Directory = (string, int) -> Option<MemberStatus>

  /** Whether `user` administers the chat named `chat`. A failed lookup
      counts as "not an admin": the check fails closed. */
  function IsUserAdmin(members: Directory, chat: string, user: int): (r: bool)
    ensures members(chat, user).None? ==> !r
    ensures r ==> members(chat, user) == Some(Creator) || members(chat, user) == Some(Administrator)
    ensures members(chat, user) == Some(Creator) ==> r
    ensures members(chat, user) == Some(Administrator) ==> r
  {
    match members(chat, user)
    case Some(status) => status == Creator || status == Administrator
    case None => false
  }
}

=== FILE: settings.dfy ===
/** Per-group thresholds, keyed by the text form of a group reference. */
module Settings {
  import opened Basics

  /** Which threshold a configuration dialog edits: `config_timeout` or `config_ban`. */
  datatype ConfigAction = TimeoutAction | BanAction

  /** A group's thresholds. A limit is `None` when a confirmation stored
      JavaScript's `undefined` in it (a dialog confirmed before any limit was
      chosen); no violation count ever reaches such a limit. */
  datatype GroupSettings = GroupSettings(timeoutLimit: Option<int>, banLimit: Option<int>)

  /** The `groupSettings` map. Entries are written only by a confirmed dialog
      and never removed. */
  type Store = map<string, GroupSettings>

  /** The thresholds of a group nobody has configured. */
  const Defaults: GroupSettings := GroupSettings(Some(2), Some(10))

  /** `groupSettings.get(key) || { timeoutLimit: 2, banLimit: 10 }` */
  function Effective(store: Store, key: string): GroupSettings {
    if key in store then store[key] else Defaults
  }

  function LimitOf(s: GroupSettings, a: ConfigAction): Option<int> {
    match a
    case TimeoutAction => s.timeoutLimit
    case BanAction => s.banLimit
  }

  function Other(a: ConfigAction): ConfigAction {
    match a
    case TimeoutAction => BanAction
    case BanAction => TimeoutAction
  }

  /** The write a confirmed dialog makes: the group's effective settings with
      the one limit the dialog edited replaced. */
  function Apply(store: Store, key: string, a: ConfigAction, limit: Option<int>): (store': Store)
    ensures store'.Keys == store.Keys + {key}
    ensures LimitOf(store'[key], a) == limit
    ensures LimitOf(store'[key], Other(a)) == LimitOf(Effective(store, key), Other(a))
    ensures forall k | k in store && k != key :: store'[k] == store[k]
  {
    var s := Effective(store, key);
    var s' := match a
      case TimeoutAction => s.(timeoutLimit := limit)
      case BanAction => s.(banLimit := limit);
    store[key := s']
  }

  /** Confirming the same choice twice stores what confirming it once stores. */
  lemma ApplyIdempotent(store: Store, key: string, a: ConfigAction, limit: Option<int>)
    ensures Apply(Apply(store, key, a, limit), key, a, limit) == Apply(store, key, a, limit)
  {
  }

  /** Setting the timeout limit and the ban limit of a group gives the same
      settings in either order. */
  lemma ApplyCommutes(store: Store, key: string, timeout: Option<int>, ban: Option<int>)
    ensures Apply(Apply(store, key, TimeoutAction, timeout), key, BanAction, ban)
         == Apply(Apply(store, key, BanAction, ban), key, TimeoutAction, timeout)
    ensures Apply(Apply(store, key, TimeoutAction, timeout), key, BanAction, ban)[key]
         == GroupSettings(timeout, ban)
  {
  }
}
